=== FILE: README.md ===
# knitscape views — a Dafny model

knitscape helps a knitter follow a colourwork chart one stitch at a time. A
cursor walks the chart in the serpentine order in which a piece is worked. The
screen shows the rows around the cursor stitch by stitch (Workspace, Row), a
minimap of the whole chart (PatternMap), a toolbar of jumps and a bookmark
(Toolbar), and step buttons (App). This project models the pure computations
inside those React views, plus the `classNames` helper they share:

- `ClassNames` (`src/utils.ts`): joining optional CSS class names.
- `Decimal`: the decimal text `Number.prototype.toString()` writes for a whole number, and a parser for it.
- `Toolbar` (`src/Toolbar.tsx`): the signed offset labels, the distance to the bookmark, the three jumps and the bookmark buttons.
- `PatternMap` (`src/PatternMap.tsx`): painting the chart into an RGBA pixel buffer, and mapping a click on the map to a cursor.
- `Workspace` (`src/Workspace.tsx`): which rows are displayed and how each is placed, faded and scaled; the column labels; each row's sorted colour swatches.
- `SortOrder`: JavaScript's default `sort()` order on possibly-undefined colour strings.
- `StitchDisplay`: the per-stitch display info that Workspace and Row both compute.
- `App` (`src/App.tsx`): the row−, row+, Back and Next buttons.
- `RowView` (`src/Row.tsx`): one row's stitches, its style spreads and its labels.

The views call a pattern/cursor engine (`M.Pattern.extents`,
`M.Cursor.offsetBy`, `M.Cursor.stitchCountSinceStartOfPattern`,
`M.Pattern.stitchAt`, `M.Pattern.countUntilStitchChange`). `src/model.ts` is
not part of this model. Those functions are the fields of `Types.Engine`, and
every view that uses them takes an `Engine` as a parameter. Nothing is assumed
about what they compute, so every property below holds for any engine whose
functions return a value (see `Types.Engine` under "Left out").

Other modelling choices:

- A JavaScript value that may be `undefined` is an `Option`. For example, `palette[s]` for a stitch with no palette entry is `None`.
- Code that throws is modelled as a result that names the exception. Indexing a missing row gives `None`; `data.set` gives `Failure`.
- The two pattern shapes the views receive are kept apart. App and Row see a bare array of rows (`Grid`). Workspace and PatternMap see a record with `rows` (`Pattern`).
- The cursor has the two direction fields the views read, `directionHorizontal` and `directionVertical`. The initial cursor in `src/atoms.ts` has a single `direction` field instead; the model follows the views.

## Model

| member | source | states |
|---|---|---|
| ClassNames.KeptNames | src/utils.ts:11-13 | the filter keeps only non-empty strings, in order; its result is empty exactly when no argument is a non-empty string; a single kept argument gives back its own text unchanged |
| ClassNames.ClassNames | src/utils.ts:8-18 | undefined exactly when no argument is a non-empty string; otherwise the non-empty join, with single spaces, of the kept names |
| ClassNames.KeptNamesAppend | src/utils.ts:11-13 | filtering distributes over concatenation of argument lists |
| ClassNames.FalsyArgumentsIgnored | src/utils.ts:8-18 | inserting undefined, null, false or "" arguments anywhere does not change the result |
| ClassNames.Join | src/utils.ts:17 | the joined text starts with the first name; with more names a single space follows it; a single name is returned unchanged |
| ClassNames.JoinLength | src/utils.ts:17 | the joined string's length is the names' total length plus one space between each pair of neighbours |
| ClassNames.ClassNamesLength | src/utils.ts:14-17 | a present result's length is the kept names' total length plus k−1 separators |
| ClassNames.ClassNamesIdempotent | src/utils.ts:8-18 | passing a result back in as the only argument returns it unchanged |
| ClassNames.SplitJoin | src/utils.ts:17 | splitting the joined names at spaces gives back the names when none contains a space |
| ClassNames.ClassListOfResult | src/utils.ts:8-18 | splitting a present result at single spaces gives back exactly the kept names, when no argument contains a space |
| Decimal.NatToString | src/Toolbar.tsx:12 | the numeral is non-empty and all digits; it starts with '0' exactly for 0 |
| Decimal.ParseNatToString | src/Toolbar.tsx:12 | parsing the numeral of n gives back n |
| Decimal.IntToString | src/Toolbar.tsx:12 | the text starts with '-' exactly for negatives; the rest is digits with no leading zero; it is "0" exactly for 0 |
| Decimal.IntToStringRoundTrip | src/Toolbar.tsx:12 | every whole number's text parses back to that number |
| Toolbar.ToStringWithSign | src/Toolbar.tsx:8-13 | the first character is '+' exactly for positives and '-' exactly for negatives; the text is "0" exactly for 0; a positive number's digits after '+' have no leading zero |
| Toolbar.ToStringWithSignRoundTrip | src/Toolbar.tsx:8-13 | dropping the '+' and parsing gives back the number, so the label is faithful to the offset |
| Types.ColorOf | src/Toolbar.tsx:28 | a colour is present exactly when the stitch value has a palette entry, and it is that entry |
| Toolbar.UseJump | src/Toolbar.tsx:15-34 | the jump keeps its offset; its target is the engine's offset of the cursor; it has a colour exactly when the target stitch is in the palette |
| Toolbar.JumpLandsAtOffset | src/Toolbar.tsx:20-33 | pressing a jump button sets the cursor to exactly the engine's offset of the cursor, and the preview colour is that stitch's palette colour |
| Toolbar.PerformJump | src/Toolbar.tsx:29-31 | pressing a jump button sets the cursor to the jump's target |
| Toolbar.Distance | src/Toolbar.tsx:46-55 | the distance is the absolute difference of the two cursors' stitch counts since the start of the pattern; it is 0 exactly when the counts agree |
| Toolbar.StitchesSinceBookmark | src/Toolbar.tsx:42-56 | null exactly when there is no bookmark; otherwise the distance along the reading path |
| Toolbar.DistanceIsPseudometric | src/Toolbar.tsx:42-56 | the bookmark distance is zero from a cursor to itself, symmetric, and obeys the triangle inequality |
| Toolbar.StitchesSinceBookmarkSymmetric | src/Toolbar.tsx:42-56 | swapping the cursor and the bookmark leaves the distance unchanged |
| Toolbar.StitchesUntilEndOfRow | src/Toolbar.tsx:58-64 | for a cursor inside the row, the offset is between 1 and the width, and it lands exactly one stitch past the row's end in the reading direction |
| Types.FlipHoriz | src/Toolbar.tsx:77 | flipping always changes the horizontal direction |
| Types.FlipVert | src/Toolbar.tsx:78 | flipping always changes the vertical direction |
| Toolbar.Reversed | src/Toolbar.tsx:75-79 | the position stays and both reading directions change |
| Toolbar.NextColorOffset | src/Toolbar.tsx:66-71 | the "Jump to next color" offset is the engine's count of stitches until the colour changes, unchanged |
| Toolbar.PreviousColorOffset | src/Toolbar.tsx:72-82 | the "Previous color" offset is the negated next-colour offset at the cursor with both directions flipped; it is never positive when that count is not negative |
| Toolbar.PreviousIsReversedNext | src/Toolbar.tsx:66-82 | reversing twice restores the cursor; each colour offset is the other's negation at the reversed cursor |
| Toolbar.Toolbar | src/Toolbar.tsx:15-176 | "Jump to bookmark" is enabled exactly when a bookmark exists; each of the three jump buttons is the jump (offset, target and preview colour) for its offset; the colour buttons show the previous- and next-colour offsets and the next-row button the stitches until the row's end; each jump targets the engine's offset of the cursor by the offset it shows; the bookmark label is the one for the current distance, empty without a bookmark |
| Toolbar.BookmarkLabel | src/Toolbar.tsx:102-105 | the suffix is empty exactly when there is no bookmark or the distance is 0; otherwise it is "(-d)" with no leading zero in d, and its inner text parses to −d |
| Toolbar.JumpToBookmark | src/Toolbar.tsx:94-101 | with a bookmark the cursor becomes it; without one the cursor stays |
| Toolbar.SaveBookmark | src/Toolbar.tsx:107 | "Save bookmark" stores the cursor unchanged |
| Toolbar.BookmarkRoundTrip | src/Toolbar.tsx:94-107 | jumping to a just-saved bookmark restores the saved cursor; right after saving or jumping the distance is 0; right after saving the label is empty, whatever the palette |
| PatternMap.Rgba | src/PatternMap.tsx:10-15 | a parsed colour is four bytes ending in the opaque alpha 255 |
| PatternMap.ParsePalette | src/PatternMap.tsx:10-15 | the parsed palette has the palette's keys, each mapped to that colour's RGB plus alpha |
| PatternMap.WriteStitch | src/PatternMap.tsx:28-29 | writing a coloured stitch at the next pixel extends the painted prefix by that stitch |
| PatternMap.PaintRow | src/PatternMap.tsx:27-30 | the inner loop either paints the whole row after the pixels painted so far, or stops at the first stitch that throws, with the reason |
| PatternMap.FailureExplainedExtends | src/PatternMap.tsx:26-31 | a failure met in the first rows is the first failure of the whole walk |
| PatternMap.ImageDataFrom | src/PatternMap.tsx:9-33 | null exactly when width·height is 0. An image exactly when every stitch has a colour and the stitches fit in width·height pixels. An image has the given width and 4·width·height bytes: each stitch's RGBA in visiting order, then zeros. For a rectangular pattern it is exactly the stitches' pixels. Otherwise it throws at the first stitch with no colour, or at the first stitch past the buffer |
| PatternMap.Flatten | src/PatternMap.tsx:26-31 | the walk of no rows visits no stitches; the walk visits at least as many stitches as the last row holds |
| PatternMap.FlattenEnds | src/PatternMap.tsx:26-31 | the walk begins with the first row's stitches and ends with the last row's |
| PatternMap.Pixels | src/PatternMap.tsx:28 | a run of stitches takes four bytes per stitch |
| PatternMap.PixelsOpaque | src/PatternMap.tsx:10-15 | every pixel written has alpha byte 255 |
| PatternMap.FlattenPrefix | src/PatternMap.tsx:26-27 | the stitches of the first i rows are visited first |
| PatternMap.FlattenRectangular | src/PatternMap.tsx:26-31 | in a rectangular pattern width·height stitches are visited, and stitch (r, c) is the (r·width + c)-th |
| PatternMap.FlattenLength | src/PatternMap.tsx:26-31 | rows of w stitches each are visited in rows·w steps |
| PatternMap.FlattenCell | src/PatternMap.tsx:26-31 | with rows of w stitches, stitch (r, c) is the (r·w + c)-th visited |
| PatternMap.PixelsLayout | src/PatternMap.tsx:28 | stitch k's colour occupies bytes [4k, 4k+4) |
| PatternMap.RectangularImageLayout | src/PatternMap.tsx:17-32 | for a rectangular pattern, pixel r·width + c of the buffer holds the RGB of stitch (r, c) and alpha 255 |
| PatternMap.ClickedRowAsWritten | src/PatternMap.tsx:97-99 | as written: on an upright map the row is the pixel row; on a flipped map the row and the pixel row add up to `height` |
| PatternMap.ClickedRow | src/PatternMap.tsx:97-99 | corrected: a click on a pixel row of the map lands on a row of the pattern |
| PatternMap.ClickedRowInvolutive | src/PatternMap.tsx:97-99 | flipping a clicked row twice gives it back, both as written and corrected |
| PatternMap.ClickedRowAsWrittenLeavesPattern | src/PatternMap.tsx:97-99 | as written, a click on the top pixel row of a flipped map selects row `height`, and no click selects row 0 |
| PatternMap.ClickedRowIsBijection | src/PatternMap.tsx:97-99 | corrected, each row of a flipped map is reached by exactly one pixel row |
| PatternMap.ClickAsWritten | src/PatternMap.tsx:97-104 | the click sets the column to x and the row to the as-written flip of y; both directions are kept |
| PatternMap.Click | src/PatternMap.tsx:97-104 | corrected: a click on a cell of the map puts the cursor on a stitch of the pattern; directions are kept |
| StitchDisplay.StitchRow | src/Workspace.tsx:42-46 | one info per stitch with its column and its palette colour; focused exactly at the cursor's row and column |
| StitchDisplay.FocusedColumnsOfRow | src/Row.tsx:36-40 | the focused columns of a row are {cursor column} when the cursor is in that row, and none otherwise |
| StitchDisplay.AtMostOneFocusedInRow | src/Workspace.tsx:44 | at most one stitch of a row is focused |
| Workspace.CandidateRows | src/Workspace.tsx:38 | the candidate rows are listed top first, strictly decreasing |
| Workspace.ExistingRows | src/Workspace.tsx:39 | the filter keeps exactly the candidates that are rows of the pattern, and keeps their order |
| Workspace.RowsToDisplay | src/Workspace.tsx:37-47 | at most four rows, strictly decreasing. A row is displayed exactly when it exists and lies between two below and one above the cursor's row. Each carries its stitch infos |
| Workspace.FocusedStitchIsUnique | src/Workspace.tsx:42-46 | across all displayed rows the only focused stitch is the cursor's |
| Workspace.Opacity | src/Workspace.tsx:92-96 | the opacity is 0 or 1 |
| Workspace.OpaqueRowsAreCursorRowAndBelow | src/Workspace.tsx:92-96 | the visible rows are exactly the cursor's row and the row below it, where they exist |
| Workspace.TranslatePercent | src/Workspace.tsx:97-99 | a row is shifted by a whole number of row heights: not at all for the cursor's row, downwards exactly for rows below it |
| Workspace.TranslatesOfDisplayedRows | src/Workspace.tsx:97-99 | each displayed row is shifted by −100, 0, 100 or 200 percent; rows further down the list are shifted further |
| Workspace.StitchZIndex | src/Workspace.tsx:119 | zIndex is 1 exactly for the focused stitch, 0 otherwise |
| Workspace.StitchScale | src/Workspace.tsx:120-123 | the scale is one of 70%, 91%, 100% and 130%; it is above 100% exactly for a focused stitch on or above the cursor's row, and below 100% exactly on rows below the cursor's |
| Workspace.StitchScalesOfDisplayedRows | src/Workspace.tsx:119-123 | the focused stitch is scaled to 130%; rows below the cursor's go to 70%; every other stitch stays at 100% |
| Workspace.ShowColumnLabel | src/Workspace.tsx:126-128 | a column label is shown only on the cursor's row, and there exactly where a row view would show it |
| Workspace.ColumnLabelsOnCursorRow | src/Workspace.tsx:126-128 | labels appear on the cursor's row only, on exactly the columns a row view labels; the focused stitch is always labelled |
| Workspace.Colors | src/Workspace.tsx:137-140 | one colour per stitch, in order |
| Workspace.Swatches | src/Workspace.tsx:136-142 | the swatches are strictly sorted, have no duplicates, and are exactly the row's colours; only the last may be undefined |
| Workspace.SwatchesDependOnColourSetOnly | src/Workspace.tsx:136-142 | two rows with the same set of colours have the same swatches |
| SortOrder.Insert | src/Workspace.tsx:142 | inserting into a strictly sorted list keeps it strictly sorted; it adds exactly the new element |
| SortOrder.SortDistinct | src/Workspace.tsx:142 | the result is strictly sorted with exactly the input's elements |
| SortOrder.StrictlySortedUnique | src/Workspace.tsx:142 | a strictly sorted list is determined by its elements |
| SortOrder.BeforeTransitive | src/Workspace.tsx:142 | the default sort order is transitive |
| SortOrder.BeforeTotal | src/Workspace.tsx:142 | any two distinct values are ordered one way or the other |
| App.RowMinus | src/App.tsx:40-45 | the row drops by one but never below 0; nothing else changes |
| App.RowPlus | src/App.tsx:50-56 | the row rises by one but never past the last row; nothing else changes |
| App.RowButtonsInverse | src/App.tsx:40-56 | away from the edges row− and row+ undo each other; a cursor on a row of the pattern stays on one |
| App.Back | src/App.tsx:98-103 | the column drops by one but never below 0; nothing else changes |
| App.NextAsWritten | src/App.tsx:109-117 | as written: it throws exactly when no row's index equals the cursor's column; otherwise only the column changes, it steps to column+1 while that is below the length of row `pattern[cursor.column]`, and is capped at that length − 1 otherwise |
| App.Next | src/App.tsx:109-117 | corrected: defined exactly when the cursor is on a row. Inside the row, the cursor moves one stitch on and stays on the row's last stitch. Only the column changes |
| App.BackNextInverse | src/App.tsx:98-117 | inside a row, Back and the corrected Next undo each other |
| App.NextIndexesByColumn | src/App.tsx:112-115 | as written, Next throws on a one-row pattern once the cursor's column is 1 or more, and can move the cursor backwards; the corrected Next steps forward |
| RowView.Stitches | src/Row.tsx:34-42 | the stitches exist exactly when the row does, and are then the row's stitch infos: one per stitch, with its column, its palette colour, and focus exactly at the cursor |
| RowView.IsBackgroundRow | src/Row.tsx:44-47 | every row except the cursor's is a background row |
| RowView.FocusFollowsBackground | src/Row.tsx:34-47 | a background row has no focused stitch; on the cursor's row the cursor's stitch is the only focused one |
| RowView.Spread | src/Row.tsx:66-77 | a later spread overrides exactly the properties it sets |
| RowView.StyleForStitch | src/Row.tsx:59-81 | the colour is the stitch's and the size is 40×40. zIndex is set exactly when focused. Background rows scale to 70%. The focused stitch of the cursor's row scales to 130% with zIndex 2. Other stitches have no transform |
| RowView.RowStylesHaveOneSource | src/Row.tsx:59-81 | in a rendered row the focus and background overrides never meet: 130% and zIndex 2 go exactly to the cursor's stitch, and 70% exactly to background rows |
| RowView.ShowColumnLabel | src/Row.tsx:102 | a label is shown for every column divisible by 5 and for the cursor's column, and for no other column |
| RowView.RowLabelsIgnoreRow | src/Row.tsx:96-102 | a stitch is labelled exactly when its column is a multiple of 5 or the cursor's column, the same on every row |
| RowView.ColumnLabelsEveryFive | src/Row.tsx:102 | some column in every five consecutive columns is labelled, and the cursor's column is always labelled |

## Left out

- `src/model.ts` is not part of this model. The engine functions it provides (extents, offsetBy, stitchCountSinceStartOfPattern, stitchAt, countUntilStitchChange) are uninterpreted parameters, and no property relies on what they compute.
- Types.Engine: its fields are total functions, so the model assumes every engine call returns. If the engine throws (for example if `stitchAt` fails off the pattern, or on an empty pattern), the views throw during rendering, and no contract here describes that.
- ClassNames.ClassListOfResult: states only that splitting at single spaces recovers the kept names. A browser's class list also splits at tabs and newlines and drops duplicate tokens; those rules are not modelled.
- `convertColor.hex.rgb` (a library call) is an uninterpreted parameter, `hexToRgb`.
- React state and effects (`useAtom`, `useMemo`, `useCallback`, `useEffect`), the jotai atoms of `src/atoms.ts`, and re-render scheduling are not modelled. Each view is a function of the current pattern, palette, cursor and bookmark.
- DOM and canvas work is not modelled: scrolling to the cursor, `Measure` bounds, padding, `clearRect`/`fillRect`/`putImageData`, the canvas flip transform, image loading and file upload (`imageDataFrom` in `src/App.tsx`, `M.patternFromImageData`).
- PatternMap.Click: takes the clicked cell (x, y) as integers. The floating-point division and `Math.floor` that turn a client position into a cell are not modelled.
- Workspace.StitchScale: scales are exact integers in hundredths of a percent (7000, 10000, 13000, 9100), not the floating-point products the CSS string is built from.
- The undo/redo button (`useCursorHistory`) is not modelled. Its definition is not part of this model.
- `flipHoriz` and `flipVert` (imported from `src/utils.ts`) are not modelled from their definitions; Types.FlipHoriz and Types.FlipVert swap the two directions, which is what the names promise.
- Toolbar.NextColorOffset: the engine's `countUntilStitchChange(...).count` is modelled as the count alone; the other fields of the record it returns are not used by the toolbar.
- Decimal.IntToString: models `toString()` for whole numbers in positional notation only. JavaScript switches to exponent notation at 1e21, and fractional offsets cannot arise from the integer counts the engine returns.
- SortOrder.Before: compares strings by `char`. JavaScript compares UTF-16 code units, and the two orders differ only outside the Basic Multilingual Plane, which hex colour strings never use.
- Types.Extents: width and height are natural numbers. What the engine returns for a malformed pattern is not part of this model.
- PatternMap.ClickAsWritten: the source tests `directionVertical` on the render-time `cursor` but copies the other fields from `prev`. The model uses one cursor for both, which is the same whenever no other cursor update is pending. The same holds for PatternMap.Click.
- App.NextAsWritten: the source reads the row through the render-time `cursor` but the column through `prev`. The model uses one cursor for both, which is the same whenever no other cursor update is pending.
- PatternMap.ImageDataFrom: the pixel index in `Failure` is added by the model to say which stitch throws; JavaScript reports only the exception type.
- The JSX itself (the text of buttons and headings, class names applied, the `JumpButton` layout) is not modelled beyond the computed values it displays.

## Findings

| source | as written | input that shows it | evidently intended | confidence | as-written member | corrected member |
|---|---|---|---|---|---|---|
| src/PatternMap.tsx:97-99 | on a vertically flipped map the clicked pixel row y becomes pattern row `height - y` | a click on the top pixel row (y = 0) of a flipped map of height 3 gives row 3, past the last row; no click reaches row 0 | `height - 1 - y`, the row drawn at that pixel by the `scale(1, -1)` flip | high, not executed | PatternMap.ClickedRowAsWrittenLeavesPattern | PatternMap.ClickedRowIsBijection |
| src/App.tsx:109-117 | Next caps the column at `pattern[cursor.column].length - 1`, indexing rows by the cursor's column | pattern [[0,0,0]] with the cursor at row 0, column 1: `pattern[1]` is undefined and Next throws a TypeError. With pattern [[0,0,0],[0]] it moves the cursor back to column 0 | `pattern[prev.row].length - 1`, the length of the cursor's own row | high, not executed | App.NextIndexesByColumn | App.Next |

=== FILE: app.dfy ===
/** The step buttons of the main screen (src/App.tsx): row−, row+, Back and
    Next, each a cursor update over the pattern as a bare array of rows. */
module App {
  import opened Wrappers
  import opened Types

  function Max(a: int, b: int): int {
    if a < b then b else a
  }

  function Min(a: int, b: int): int {
    if a < b then a else b
  }

  /** row−: one row back, never below row 0. */
  function RowMinus(cursor: Cursor): (next: Cursor)
    ensures next.row >= 0
    ensures cursor.row >= 1 ==> next.row == cursor.row - 1
    ensures cursor.row <= 0 ==> next.row == 0
    ensures next == cursor.(row := next.row)
  {
    cursor.(row := Max(0, cursor.row - 1))
  }

  /** row+: one row on, never past the last row (and row −1 on an empty pattern). */
  function RowPlus(cursor: Cursor, pattern: Grid): (next: Cursor)
    ensures next.row <= |pattern| - 1 && next.row <= cursor.row + 1
    ensures cursor.row + 1 <= |pattern| - 1 ==> next.row == cursor.row + 1
    ensures cursor.row + 1 > |pattern| - 1 ==> next.row == |pattern| - 1
    ensures next == cursor.(row := next.row)
  {
    cursor.(row := Min(|pattern| - 1, cursor.row + 1))
  }

  /** The row buttons undo each other away from the pattern's edges, and keep a cursor that is
      on a row of the pattern on a row of the pattern. */
  lemma RowButtonsInverse(cursor: Cursor, pattern: Grid)
    ensures 1 <= cursor.row <= |pattern| - 1 ==> RowPlus(RowMinus(cursor), pattern) == cursor
    ensures 0 <= cursor.row < |pattern| - 1 ==> RowMinus(RowPlus(cursor, pattern)) == cursor
    ensures 0 <= cursor.row < |pattern| ==>
              0 <= RowMinus(cursor).row < |pattern| && 0 <= RowPlus(cursor, pattern).row < |pattern|
    ensures RowMinus(cursor.(row := 0)) == cursor.(row := 0)
  {
  }

  /** Back: one column back, never below column 0. */
  function Back(cursor: Cursor): (next: Cursor)
    ensures next.column >= 0
    ensures cursor.column >= 1 ==> next.column == cursor.column - 1
    ensures cursor.column <= 0 ==> next.column == 0
    ensures next == cursor.(column := next.column)
  {
    cursor.(column := Max(0, cursor.column - 1))
  }

  /** Next as written: caps the column by the length of `pattern[cursor.column]`, the row whose
      index is the cursor's column. None stands for the TypeError thrown when that row does
      not exist. */
  function NextAsWritten(cursor: Cursor, pattern: Grid): (next: Option<Cursor>)
    ensures next.Some? <==> 0 <= cursor.column < |pattern|
    ensures next.Some? ==> next.value == cursor.(column := next.value.column)
    ensures next.Some? ==> next.value.column <= cursor.column + 1
    ensures next.Some? ==> next.value.column <= |pattern[cursor.column]| - 1
    ensures next.Some? && cursor.column + 1 < |pattern[cursor.column]| ==>
              next.value.column == cursor.column + 1
    ensures next.Some? && cursor.column + 1 >= |pattern[cursor.column]| ==>
              next.value.column == |pattern[cursor.column]| - 1
  {
    if 0 <= cursor.column < |pattern| then
      Some(cursor.(column := Min(|pattern[cursor.column]| - 1, cursor.column + 1)))
    else None
  }

  /** Next, corrected to cap the column by the length of the cursor's own row. None stands
      for the TypeError thrown when the cursor is on no row. */
  function Next(cursor: Cursor, pattern: Grid): (next: Option<Cursor>)
    ensures next.Some? <==> 0 <= cursor.row < |pattern|
    ensures next.Some? ==> next.value == cursor.(column := next.value.column)
    ensures next.Some? && 0 <= cursor.column < |pattern[cursor.row]| ==>
              cursor.column <= next.value.column < |pattern[cursor.row]|
    ensures next.Some? && cursor.column + 1 < |pattern[cursor.row]| ==>
              next.value.column == cursor.column + 1
  {
    if 0 <= cursor.row < |pattern| then
      Some(cursor.(column := Min(|pattern[cursor.row]| - 1, cursor.column + 1)))
    else None
  }

  /** Inside a row, Back and the corrected Next undo each other. */
  lemma BackNextInverse(cursor: Cursor, pattern: Grid)
    requires 0 <= cursor.row < |pattern|
    ensures 1 <= cursor.column <= |pattern[cursor.row]| - 1 ==> Next(Back(cursor), pattern) == Some(cursor)
    ensures 0 <= cursor.column < |pattern[cursor.row]| - 1 ==> Back(Next(cursor, pattern).value) == cursor
  {
  }

  /** As written, Next throws on a one-row pattern once the cursor's column is 1 or more, and on a
      pattern whose second row is short it moves the cursor backwards; the corrected Next
      steps forward in both. */
  lemma NextIndexesByColumn()
    ensures var cursor := Cursor(0, 1, Ltr, Ascending);
            NextAsWritten(cursor, [[0, 0, 0]]).None? &&
            Next(cursor, [[0, 0, 0]]) == Some(cursor.(column := 2))
    ensures var cursor := Cursor(0, 1, Ltr, Ascending);
            NextAsWritten(cursor, [[0, 0, 0], [0]]) == Some(cursor.(column := 0)) &&
            Next(cursor, [[0, 0, 0], [0]]) == Some(cursor.(column := 2))
  {
  }
}

=== FILE: class_names.dfy ===
/** `classNames` (src/utils.ts): combines optional CSS class names into one
    `className` attribute value. */
module ClassNames {
  import opened Wrappers

  /** One argument: a string, or one of the falsy non-strings the signature admits. */
  datatype Arg = Name(text: string) | Undefined | Null | False

  /** The filter's test: a string of positive length. */
  predicate Kept(a: Arg) {
    a.Name? && |a.text| > 0
  }

  /** The names that survive the filter, in argument order. */
  function KeptNames(args: seq<Arg>): (names: seq<string>)
    ensures |names| <= |args|
    ensures forall i :: 0 <= i < |names| ==> |names[i]| > 0
    ensures |names| == 0 <==> forall i :: 0 <= i < |args| ==> !Kept(args[i])
    ensures |args| == 1 ==> names == (if Kept(args[0]) then [args[0].text] else [])
    decreases |args|
  {
    if |args| == 0 then []
    else (if Kept(args[0]) then [args[0].text] else []) + KeptNames(args[1..])
  }

  /** The names joined with one space between neighbours, for a non-empty list. */
  function Join(names: seq<string>): (joined: string)
    requires |names| > 0
    ensures names[0] <= joined
    ensures |names| > 1 ==> |joined| > |names[0]| && joined[|names[0]|] == ' '
    ensures |names| == 1 ==> joined == names[0]
    decreases |names|
  {
    if |names| == 1 then names[0] else names[0] + " " + Join(names[1..])
  }

  /** undefined when no argument is a non-empty string, otherwise the kept names joined by spaces. */
  function ClassNames(args: seq<Arg>): (r: Option<string>)
    ensures r.None? <==> forall i :: 0 <= i < |args| ==> !Kept(args[i])
    ensures r.Some? ==> |r.value| > 0
    ensures r.Some? ==> r.value == Join(KeptNames(args))
  {
    var names := KeptNames(args);
    if |names| == 0 then None else Some(Join(names))
  }

  /** Filtering distributes over concatenation, so the kept names keep argument order. */
  lemma {:induction false} KeptNamesAppend(a: seq<Arg>, b: seq<Arg>)
    ensures KeptNames(a + b) == KeptNames(a) + KeptNames(b)
    decreases |a|
  {
    if |a| == 0 {
      assert a + b == b;
    } else {
      assert (a + b)[1..] == a[1..] + b;
      KeptNamesAppend(a[1..], b);
    }
  }

  /** Falsy arguments placed anywhere leave the result unchanged. */
  lemma FalsyArgumentsIgnored(before: seq<Arg>, falsy: seq<Arg>, after: seq<Arg>)
    requires forall i :: 0 <= i < |falsy| ==> !Kept(falsy[i])
    ensures ClassNames(before + falsy + after) == ClassNames(before + after)
  {
    KeptNamesAppend(before + falsy, after);
    KeptNamesAppend(before, falsy);
    KeptNamesAppend(before, after);
    assert KeptNames(falsy) == [];
    assert KeptNames(before) + [] == KeptNames(before);
    assert KeptNames(before + falsy + after) == KeptNames(before + after);
  }

  function TotalLength(names: seq<string>): nat
    decreases |names|
  {
    if |names| == 0 then 0 else |names[0]| + TotalLength(names[1..])
  }

  /** The joined string holds every name plus one separator between neighbours. */
  lemma {:induction false} JoinLength(names: seq<string>)
    requires |names| > 0
    ensures |Join(names)| == TotalLength(names) + |names| - 1
    decreases |names|
  {
    if |names| > 1 {
      JoinLength(names[1..]);
    }
  }

  /** A present result's length is the kept names' lengths plus (k - 1) separators. */
  lemma ClassNamesLength(args: seq<Arg>)
    requires ClassNames(args).Some?
    ensures |ClassNames(args).value| == TotalLength(KeptNames(args)) + |KeptNames(args)| - 1
  {
    JoinLength(KeptNames(args));
  }

  /** Passing a result back in (a string, or undefined) returns it unchanged. */
  lemma ClassNamesIdempotent(args: seq<Arg>)
    ensures var r := ClassNames(args);
            ClassNames([if r.Some? then Name(r.value) else Undefined]) == r
  {
  }

  /** Splitting at single spaces: the pieces between them, in order. */
  function Split(s: string): (pieces: seq<string>)
    ensures |pieces| > 0
    decreases |s|
  {
    if |s| == 0 then [""]
    else if s[0] == ' ' then [""] + Split(s[1..])
    else
      var rest := Split(s[1..]);
      [[s[0]] + rest[0]] + rest[1..]
  }

  predicate SpaceFree(s: string) {
    forall i :: 0 <= i < |s| ==> s[i] != ' '
  }

  lemma {:induction false} SplitPrefix(name: string, tail: string)
    requires SpaceFree(name)
    ensures Split(name + " " + tail) == [name] + Split(tail)
    ensures Split(name) == [name]
    decreases |name|
  {
    if |name| > 0 {
      SplitPrefix(name[1..], tail);
      assert (name + " " + tail)[1..] == name[1..] + " " + tail;
      assert name == [name[0]] + name[1..];
    }
  }

  /** Splitting the joined names at spaces recovers them when no name holds a space. */
  lemma {:induction false} SplitJoin(names: seq<string>)
    requires |names| > 0
    requires forall i :: 0 <= i < |names| ==> SpaceFree(names[i])
    ensures Split(Join(names)) == names
    decreases |names|
  {
    if |names| == 1 {
      SplitPrefix(names[0], "");
    } else {
      SplitPrefix(names[0], Join(names[1..]));
      SplitJoin(names[1..]);
      assert names == [names[0]] + names[1..];
    }
  }

  /** Splitting a present result at single spaces gives back the kept names, when no argument
      holds a space. */
  lemma ClassListOfResult(args: seq<Arg>)
    requires ClassNames(args).Some?
    requires forall i :: 0 <= i < |args| ==> args[i].Name? ==> SpaceFree(args[i].text)
    ensures Split(ClassNames(args).value) == KeptNames(args)
  {
    KeptNamesSpaceFree(args);
    SplitJoin(KeptNames(args));
  }

  lemma {:induction false} KeptNamesSpaceFree(args: seq<Arg>)
    requires forall i :: 0 <= i < |args| ==> args[i].Name? ==> SpaceFree(args[i].text)
    ensures forall i :: 0 <= i < |KeptNames(args)| ==> SpaceFree(KeptNames(args)[i])
    decreases |args|
  {
    if |args| > 0 {
      KeptNamesSpaceFree(args[1..]);
    }
  }
}

=== FILE: decimal.dfy ===
/** Decimal text of integers, as JavaScript's `Number.prototype.toString()`
    writes a whole number, and the matching parser. */
module Decimal {
  import opened Wrappers

  predicate IsDigit(c: char) {
    '0' <= c <= '9'
  }

  predicate IsDigits(s: string) {
    forall i :: 0 <= i < |s| ==> IsDigit(s[i])
  }

  function DigitChar(d: nat): (c: char)
    requires d < 10
    ensures IsDigit(c)
    ensures DigitValue(c) == d
  {
    (('0' as int) + d) as char
  }

  function DigitValue(c: char): (d: nat)
    requires IsDigit(c)
    ensures d < 10
  {
    (c as int) - ('0' as int)
  }

  /** The shortest decimal numeral of n: no sign, no leading zero. */
  function NatToString(n: nat): (s: string)
    ensures |s| > 0 && IsDigits(s)
    ensures s[0] == '0' <==> n == 0
    ensures n == 0 ==> s == "0"
    decreases n
  {
    if n < 10 then [DigitChar(n)] else NatToString(n / 10) + [DigitChar(n % 10)]
  }

  /** The value of a string of decimal digits (0 for the empty string). */
  function ParseNat(s: string): nat
    requires IsDigits(s)
    decreases |s|
  {
    if |s| == 0 then 0 else ParseNat(s[..|s| - 1]) * 10 + DigitValue(s[|s| - 1])
  }

  /** Parsing the numeral of n gives back n. */
  lemma {:induction false} ParseNatToString(n: nat)
    ensures ParseNat(NatToString(n)) == n
    decreases n
  {
    var s := NatToString(n);
    if n >= 10 {
      ParseNatToString(n / 10);
      assert s[..|s| - 1] == NatToString(n / 10);
    }
  }

  /** `n.toString()` for a whole number n: "-" before the numeral of |n| when n is negative. */
  function IntToString(n: int): (s: string)
    ensures |s| > 0
    ensures s[0] == '-' <==> n < 0
    ensures n >= 0 ==> IsDigits(s)
    ensures n < 0 ==> IsDigits(s[1..]) && |s| > 1
    ensures s == "0" <==> n == 0
    ensures n > 0 ==> s[0] != '0'
    ensures n < 0 ==> s[1] != '0'
  {
    if n < 0 then "-" + NatToString(-n) else NatToString(n)
  }

  /** Reads an optional "-" followed by at least one digit; None for anything else. */
  function ParseInt(s: string): Option<int> {
    if |s| > 1 && s[0] == '-' && IsDigits(s[1..]) then
      var magnitude: int := ParseNat(s[1..]); Some(-magnitude)
    else if |s| > 0 && IsDigits(s) then Some(ParseNat(s))
    else None
  }

  /** Every whole number's text parses back to that number. */
  lemma IntToStringRoundTrip(n: int)
    ensures ParseInt(IntToString(n)) == Some(n)
  {
    var s := IntToString(n);
    if n < 0 {
      assert s[1..] == NatToString(-n);
      ParseNatToString(-n);
    } else {
      assert !IsDigit('-');
      ParseNatToString(n);
    }
  }
}

=== FILE: pattern_map.dfy ===
/** The minimap (src/PatternMap.tsx): the pattern painted one pixel per
    stitch into an RGBA buffer, and a click on the map moving the cursor. */
module PatternMap {
  import opened Wrappers
  import opened Types

  /** One channel of a `Uint8ClampedArray`. */
  type Byte = b: int | 0 <= b < 256

  /** What `convertColor.hex.rgb` yields for a colour; the conversion itself is a parameter. */
  datatype Rgb = Rgb(red: Byte, green: Byte, blue: Byte)

  /** The four bytes of a colour: its RGB and a fully opaque alpha. */
  function Rgba(rgb: Rgb): (bytes: seq<Byte>)
    ensures |bytes| == 4
    ensures bytes[3] == 255
  {
    [rgb.red, rgb.green, rgb.blue, 255]
  }

  /** `parsedPalette`: every palette colour converted to RGBA bytes, same keys. */
  function ParsePalette(palette: Palette, hexToRgb: Color -> Rgb): (parsed: map<int, seq<Byte>>)
    ensures parsed.Keys == palette.Keys
    ensures forall s :: s in parsed ==> parsed[s] == Rgba(hexToRgb(palette[s]))
  {
    map s | s in palette :: Rgba(hexToRgb(palette[s]))
  }

  /** The rows laid end to end, in the order the loops visit them. */
  function Flatten(rows: Grid): (stitches: seq<int>)
    ensures |rows| == 0 ==> stitches == []
    ensures |rows| > 0 ==> |rows[|rows| - 1]| <= |stitches|
    decreases |rows|
  {
    if |rows| == 0 then [] else Flatten(rows[..|rows| - 1]) + rows[|rows| - 1]
  }

  /** The walk starts with the first row's stitches and ends with the last row's. */
  lemma {:induction false} FlattenEnds(rows: Grid)
    requires |rows| > 0
    ensures |rows[0]| <= |Flatten(rows)| && Flatten(rows)[..|rows[0]|] == rows[0]
    ensures var last := rows[|rows| - 1];
            Flatten(rows)[|Flatten(rows)| - |last|..] == last
    decreases |rows|
  {
    var n := |rows|;
    var front := rows[..n - 1];
    if n > 1 {
      FlattenEnds(front);
      assert front[0] == rows[0];
    } else {
      assert Flatten(front) == [];
    }
  }

  predicate AllInPalette(stitches: seq<int>, palette: Palette) {
    forall k :: 0 <= k < |stitches| ==> stitches[k] in palette
  }

  /** The bytes of a run of stitches, four per stitch, in order. */
  function Pixels(stitches: seq<int>, palette: Palette, hexToRgb: Color -> Rgb): (bytes: seq<Byte>)
    requires AllInPalette(stitches, palette)
    ensures |bytes| == 4 * |stitches|
    decreases |stitches|
  {
    if |stitches| == 0 then []
    else
      var last := stitches[|stitches| - 1];
      var front := Pixels(stitches[..|stitches| - 1], palette, hexToRgb);
      front + Rgba(hexToRgb(palette[last]))
  }

  function Zeros(n: nat): (bytes: seq<Byte>)
    ensures |bytes| == n
    ensures forall i :: 0 <= i < n ==> bytes[i] == 0
  {
    seq(n, _ => 0)
  }

  datatype ImageData = ImageData(data: seq<Byte>, width: nat)

  /** Why painting threw. The pixel index is the stitch's position in the loops' order. */
  datatype Failure =
    | UnknownStitch(pixelIndex: nat, stitch: int)  // the stitch has no colour to copy: TypeError
    | BufferOverrun(pixelIndex: nat)               // a coloured stitch past the buffer's end: RangeError

  /** The value of `imageDataFrom`: null, an image, or the exception it throws. */
  datatype Painted = NoImage | Image(image: ImageData) | Throws(failure: Failure)

  /** The buffer after the first |done| stitches were written into a buffer of n pixels. */
  ghost predicate PaintedSoFar(data: seq<Byte>, done: seq<int>, n: nat, palette: Palette, hexToRgb: Color -> Rgb) {
    |done| <= n &&
    AllInPalette(done, palette) &&
    data == Pixels(done, palette, hexToRgb) + Zeros(4 * (n - |done|))
  }

  /** The failure is the one the loops meet first when writing `stitches` into n pixels:
      a stitch without a colour (checked first, as `data.set` converts its source before
      it checks the offset), or a coloured stitch beyond the last pixel. */
  predicate FailureExplained(failure: Failure, stitches: seq<int>, n: nat, palette: Palette) {
    var k := failure.pixelIndex;
    k < |stitches| && AllInPalette(stitches[..k], palette) &&
    match failure
    case UnknownStitch(_, stitch) => k <= n && stitches[k] == stitch && stitch !in palette
    case BufferOverrun(_) => k == n && stitches[k] in palette
  }

  /** Writing one more stitch's bytes at the next pixel extends the painted prefix by it. */
  lemma WriteStitch(data: seq<Byte>, done: seq<int>, stitch: int, n: nat, palette: Palette, hexToRgb: Color -> Rgb)
    requires PaintedSoFar(data, done, n, palette, hexToRgb)
    requires |done| < n && stitch in palette
    ensures var p := |done|;
            PaintedSoFar(data[..4 * p] + Rgba(hexToRgb(palette[stitch])) + data[4 * p + 4..],
                         done + [stitch], n, palette, hexToRgb)
  {
    var after := done + [stitch];
    assert after[..|done|] == done;
    assert AllInPalette(after, palette);
  }

  /** The inner loop of `imageDataFrom`: writes one row's stitches from pixel |done| on. */
  method PaintRow(parsed: map<int, seq<Byte>>, row: seq<int>, data: seq<Byte>, pixelIndex: nat, n: nat,
                  ghost done: seq<int>, ghost palette: Palette, ghost hexToRgb: Color -> Rgb)
    returns (data': seq<Byte>, pixelIndex': nat, failure: Option<Failure>)
    requires parsed == ParsePalette(palette, hexToRgb)
    requires |data| == 4 * n
    requires pixelIndex == |done| && PaintedSoFar(data, done, n, palette, hexToRgb)
    ensures failure.None? ==>
              pixelIndex' == |done| + |row| && PaintedSoFar(data', done + row, n, palette, hexToRgb)
    ensures failure.Some? ==> FailureExplained(failure.value, done + row, n, palette)
  {
    data' := data;
    pixelIndex' := pixelIndex;
    var j := 0;
    assert done + row[..0] == done;
    while j < |row|
      invariant 0 <= j <= |row|
      invariant pixelIndex' == |done| + j
      invariant PaintedSoFar(data', done + row[..j], n, palette, hexToRgb)
    {
      var stitch := row[j];
      assert (done + row)[..pixelIndex'] == done + row[..j];
      assert (done + row)[pixelIndex'] == stitch;
      if stitch !in parsed {
        return data', pixelIndex', Some(UnknownStitch(pixelIndex', stitch));
      }
      if 4 * pixelIndex' + 4 > |data'| {
        return data', pixelIndex', Some(BufferOverrun(pixelIndex'));
      }
      WriteStitch(data', done + row[..j], stitch, n, palette, hexToRgb);
      assert done + row[..j + 1] == done + row[..j] + [stitch];
      data' := data'[..4 * pixelIndex'] + parsed[stitch] + data'[4 * pixelIndex' + 4..];
      pixelIndex' := pixelIndex' + 1;
      j := j + 1;
    }
    assert row[..j] == row;
    failure := None;
  }

  /** A failure explained for a prefix of the stitches is explained for all of them. */
  lemma FailureExplainedExtends(failure: Failure, prefix: seq<int>, stitches: seq<int>, n: nat, palette: Palette)
    requires prefix <= stitches
    requires FailureExplained(failure, prefix, n, palette)
    ensures FailureExplained(failure, stitches, n, palette)
  {
    var k := failure.pixelIndex;
    assert stitches[..k] == prefix[..k];
  }

  /** `imageDataFrom`: allocates width·height·4 zero bytes, then writes each stitch's RGBA
      at the next pixel while walking the rows in order. */
  method ImageDataFrom(engine: Engine, pattern: Pattern, palette: Palette, hexToRgb: Color -> Rgb)
    returns (painted: Painted)
    ensures var e := engine.extents(pattern);
            painted.NoImage? <==> e.width * e.height == 0
    ensures var e := engine.extents(pattern); var stitches := Flatten(pattern.rows);
            painted.Image? <==>
              e.width * e.height > 0 && |stitches| <= e.width * e.height && AllInPalette(stitches, palette)
    ensures var e := engine.extents(pattern); var stitches := Flatten(pattern.rows);
            painted.Image? ==>
              painted.image.width == e.width &&
              |painted.image.data| == 4 * (e.width * e.height) &&
              AllInPalette(stitches, palette) &&
              painted.image.data[..4 * |stitches|] == Pixels(stitches, palette, hexToRgb) &&
              forall i :: 4 * |stitches| <= i < |painted.image.data| ==> painted.image.data[i] == 0
    ensures var e := engine.extents(pattern); var stitches := Flatten(pattern.rows);
            painted.Image? && Rectangular(pattern.rows, e) ==>
              painted.image.data == Pixels(stitches, palette, hexToRgb)
    ensures var e := engine.extents(pattern);
            painted.Throws? ==>
              e.width * e.height > 0 &&
              FailureExplained(painted.failure, Flatten(pattern.rows), e.width * e.height, palette)
  {
    var parsed := ParsePalette(palette, hexToRgb);
    var extents := engine.extents(pattern);
    var pixelCount := extents.width * extents.height;
    if pixelCount == 0 {
      return NoImage;
    }
    var data: seq<Byte> := Zeros(4 * pixelCount);
    ghost var all := Flatten(pattern.rows);
    ghost var done: seq<int> := [];
    var pixelIndex: nat := 0;
    var i := 0;
    while i < |pattern.rows|
      invariant 0 <= i <= |pattern.rows|
      invariant done == Flatten(pattern.rows[..i]) && done <= all
      invariant pixelIndex == |done| && |data| == 4 * pixelCount
      invariant PaintedSoFar(data, done, pixelCount, palette, hexToRgb)
    {
      var row := pattern.rows[i];
      FlattenPrefix(pattern.rows, i + 1);
      assert pattern.rows[..i + 1][..i] == pattern.rows[..i];
      var failure;
      data, pixelIndex, failure := PaintRow(parsed, row, data, pixelIndex, pixelCount, done, palette, hexToRgb);
      if failure.Some? {
        FailureExplainedExtends(failure.value, done + row, all, pixelCount, palette);
        return Throws(failure.value);
      }
      done := done + row;
      i := i + 1;
    }
    assert pattern.rows[..i] == pattern.rows;
    if Rectangular(pattern.rows, extents) {
      FlattenRectangular(pattern.rows, extents);
      assert data == data[..4 * |all|];
    }
    return Image(ImageData(data, extents.width));
  }

  /** The stitches of the first i rows come first in the flattened pattern. */
  lemma {:induction false} FlattenPrefix(rows: Grid, i: nat)
    requires i <= |rows|
    ensures Flatten(rows[..i]) <= Flatten(rows)
    decreases |rows|
  {
    if i < |rows| {
      var n := |rows|;
      FlattenPrefix(rows[..n - 1], i);
      assert rows[..n - 1][..i] == rows[..i];
    } else {
      assert rows[..i] == rows;
    }
  }

  /** Every row has `width` stitches and there are `height` rows. */
  predicate Rectangular(rows: Grid, extents: Extents) {
    |rows| == extents.height && forall r :: 0 <= r < |rows| ==> |rows[r]| == extents.width
  }

  /** In a rectangular pattern the stitch at (r, c) is the (r·width + c)-th one visited, and
      the loops visit width·height stitches in all. */
  lemma FlattenRectangular(rows: Grid, extents: Extents)
    requires Rectangular(rows, extents)
    ensures |Flatten(rows)| == extents.width * extents.height
    ensures forall r: nat, c: nat :: r < |rows| && c < extents.width ==> VisitedAt(rows, extents.width, r, c)
  {
    var w := extents.width;
    FlattenLength(rows, w);
    assert |rows| * w == w * extents.height;
    forall r: nat, c: nat | r < |rows| && c < w
      ensures VisitedAt(rows, w, r, c)
    {
      FlattenCell(rows, w, r, c);
    }
  }

  /** Stitch (r, c) is the (r·w + c)-th one visited. */
  predicate VisitedAt(rows: Grid, w: nat, r: nat, c: nat) {
    r < |rows| && c < |rows[r]| && r * w + c < |Flatten(rows)| && Flatten(rows)[r * w + c] == rows[r][c]
  }

  /** Rows of w stitches each are visited in |rows|·w steps. */
  lemma {:induction false} FlattenLength(rows: Grid, w: nat)
    requires forall r :: 0 <= r < |rows| ==> |rows[r]| == w
    ensures |Flatten(rows)| == |rows| * w
    decreases |rows|
  {
    if |rows| > 0 {
      var n := |rows|;
      FlattenLength(rows[..n - 1], w);
      MultiplySucc(n - 1, w);
    }
  }

  /** With rows of w stitches each, stitch (r, c) is the (r·w + c)-th one visited. */
  lemma {:induction false} FlattenCell(rows: Grid, w: nat, r: nat, c: nat)
    requires forall i :: 0 <= i < |rows| ==> |rows[i]| == w
    requires r < |rows| && c < w
    ensures r * w + c < |Flatten(rows)|
    ensures Flatten(rows)[r * w + c] == rows[r][c]
    decreases |rows|
  {
    var n := |rows|;
    var upper := rows[..n - 1];
    FlattenLength(upper, w);
    MultiplySucc(n - 1, w);
    var k := r * w + c;
    if r < n - 1 {
      FlattenCell(upper, w, r, c);
      assert upper[r] == rows[r];
    } else {
      assert k - |Flatten(upper)| == c;
    }
  }

  lemma MultiplySucc(a: nat, w: nat)
    ensures (a + 1) * w == a * w + w
  {
  }

  /** Stitch k's four bytes are at [4k, 4k + 4). */
  lemma {:induction false} PixelsLayout(stitches: seq<int>, palette: Palette, hexToRgb: Color -> Rgb, k: nat)
    requires AllInPalette(stitches, palette)
    requires k < |stitches|
    ensures Pixels(stitches, palette, hexToRgb)[4 * k..4 * k + 4] == Rgba(hexToRgb(palette[stitches[k]]))
    decreases |stitches|
  {
    var n := |stitches|;
    var front := stitches[..n - 1];
    if k < n - 1 {
      PixelsLayout(front, palette, hexToRgb, k);
      assert front[k] == stitches[k];
    }
  }

  /** Every pixel written is fully opaque. */
  lemma PixelsOpaque(stitches: seq<int>, palette: Palette, hexToRgb: Color -> Rgb)
    requires AllInPalette(stitches, palette)
    ensures forall k :: 0 <= k < |stitches| ==> Pixels(stitches, palette, hexToRgb)[4 * k + 3] == 255
  {
    forall k | 0 <= k < |stitches|
      ensures Pixels(stitches, palette, hexToRgb)[4 * k + 3] == 255
    {
      PixelsLayout(stitches, palette, hexToRgb, k);
    }
  }

  /** For a rectangular pattern, the painted bytes fill the whole buffer, and pixel
      r·width + c holds the RGB of the stitch at (r, c) with an opaque alpha. */
  lemma RectangularImageLayout(pattern: Pattern, extents: Extents, palette: Palette, hexToRgb: Color -> Rgb,
                               data: seq<Byte>, r: nat, c: nat)
    requires Rectangular(pattern.rows, extents)
    requires AllInPalette(Flatten(pattern.rows), palette)
    requires data == Pixels(Flatten(pattern.rows), palette, hexToRgb)
    requires r < extents.height && c < extents.width
    ensures |data| == 4 * (extents.width * extents.height)
    ensures r * extents.width + c < extents.width * extents.height
    ensures pattern.rows[r][c] in palette
    ensures var k := r * extents.width + c;
            var rgb := hexToRgb(palette[pattern.rows[r][c]]);
            data[4 * k..4 * k + 4] == [rgb.red, rgb.green, rgb.blue, 255]
  {
    var rows := pattern.rows;
    var w := extents.width;
    FlattenLength(rows, w);
    FlattenCell(rows, w, r, c);
    var k := r * w + c;
    assert k < |Flatten(rows)| && |Flatten(rows)| == w * extents.height;
    assert Flatten(rows)[k] == rows[r][c];
    PixelsLayout(Flatten(rows), palette, hexToRgb, k);
  }

  /** The row a click lands on, as written: on a vertically flipped map the pixel row y
      becomes `height - y`. */
  function ClickedRowAsWritten(y: int, height: nat, direction: VerticalDirection): (row: int)
    ensures direction == Ascending ==> row == y
    ensures direction == Descending ==> row + y == height
  {
    if direction == Descending then height - y else y
  }

  /** The row a click lands on, corrected: on a flipped map pixel row y shows pattern row
      `height - 1 - y`. */
  function ClickedRow(y: int, height: nat, direction: VerticalDirection): (row: int)
    ensures 0 <= y < height ==> 0 <= row < height
  {
    if direction == Descending then height - 1 - y else y
  }

  /** Flipping twice gives back the pixel row, for both definitions. */
  lemma ClickedRowInvolutive(y: int, height: nat)
    ensures ClickedRowAsWritten(ClickedRowAsWritten(y, height, Descending), height, Descending) == y
    ensures ClickedRow(ClickedRow(y, height, Descending), height, Descending) == y
  {
  }

  /** As written, a click on the top pixel row of a flipped map selects row `height`, one past
      the last row, and no click selects row 0. */
  lemma ClickedRowAsWrittenLeavesPattern(height: nat)
    requires height > 0
    ensures ClickedRowAsWritten(0, height, Descending) == height
    ensures forall y :: 0 <= y < height ==> ClickedRowAsWritten(y, height, Descending) != 0
  {
  }

  /** Corrected, the flipped clicks reach every row exactly once. */
  lemma ClickedRowIsBijection(height: nat, row: int)
    requires 0 <= row < height
    ensures ClickedRow(height - 1 - row, height, Descending) == row
    ensures 0 <= height - 1 - row < height
  {
  }

  /** The click handler as written: row and column from the clicked cell, directions kept. */
  function ClickAsWritten(cursor: Cursor, x: int, y: int, height: nat): (next: Cursor)
    ensures next.column == x
    ensures next.row == ClickedRowAsWritten(y, height, cursor.directionVertical)
    ensures next.directionHorizontal == cursor.directionHorizontal
    ensures next.directionVertical == cursor.directionVertical
  {
    cursor.(row := ClickedRowAsWritten(y, height, cursor.directionVertical), column := x)
  }

  /** The click handler with the corrected flip. A click on a cell of the map puts the
      cursor on a stitch of the pattern; the directions are kept. */
  function Click(cursor: Cursor, x: int, y: int, extents: Extents): (next: Cursor)
    ensures 0 <= x < extents.width && 0 <= y < extents.height ==>
              0 <= next.row < extents.height && 0 <= next.column < extents.width
    ensures next.column == x
    ensures cursor.directionVertical == Ascending ==> next.row == y
    ensures next.directionHorizontal == cursor.directionHorizontal
    ensures next.directionVertical == cursor.directionVertical
  {
    cursor.(row := ClickedRow(y, extents.height, cursor.directionVertical), column := x)
  }
}

=== FILE: row_view.dfy ===
/** One row of stitches (src/Row.tsx) over the pattern as a bare array: the
    row's stitches, whether it is a background row, each stitch's style, and
    which columns carry a label. */
module RowView {
  import opened Wrappers
  import opened Types
  import opened StitchDisplay

  /** Width and height of a stitch, in pixels. */
  const StitchSize: nat := 40

  /** `stitches`: the display info of row `rowIndex`; None stands for the TypeError thrown
      when the pattern has no such row. */
  function Stitches(pattern: Grid, palette: Palette, rowIndex: int, cursor: Cursor): (stitches: Option<seq<StitchInfo>>)
    ensures stitches.Some? <==> 0 <= rowIndex < |pattern|
    ensures stitches.Some? ==> |stitches.value| == |pattern[rowIndex]|
    ensures stitches.Some? ==> stitches.value == StitchRow(pattern[rowIndex], rowIndex, palette, cursor)
  {
    if 0 <= rowIndex < |pattern| then Some(StitchRow(pattern[rowIndex], rowIndex, palette, cursor)) else None
  }

  /** Every row but the cursor's is a background row. */
  function IsBackgroundRow(cursor: Cursor, rowIndex: int): (background: bool)
    ensures !background <==> rowIndex == cursor.row
  {
    cursor.row != rowIndex
  }

  /** A background row has no focused stitch; on the cursor's row the stitch in the cursor's
      column is focused. */
  lemma FocusFollowsBackground(pattern: Grid, palette: Palette, rowIndex: int, cursor: Cursor)
    requires 0 <= rowIndex < |pattern|
    ensures var stitches := Stitches(pattern, palette, rowIndex, cursor).value;
            IsBackgroundRow(cursor, rowIndex) ==> FocusedColumns(stitches) == {}
    ensures var stitches := Stitches(pattern, palette, rowIndex, cursor).value;
            !IsBackgroundRow(cursor, rowIndex) && 0 <= cursor.column < |stitches| ==>
              FocusedColumns(stitches) == {cursor.column as nat}
  {
    FocusedColumnsOfRow(pattern[rowIndex], rowIndex, palette, cursor);
  }

  /** The inline style of a stitch; a missing entry is a property the style leaves unset. */
  datatype StitchStyle = StitchStyle(
    backgroundColor: Option<Color>,
    width: nat,
    height: nat,
    scalePercent: Option<nat>,
    zIndex: Option<int>)

  /** The properties an object spread may set. */
  datatype StyleOverride = StyleOverride(scalePercent: Option<nat>, zIndex: Option<int>)

  /** `{ ...style, ...o }`: the properties o sets replace those of style. */
  function Spread(style: StitchStyle, o: StyleOverride): (r: StitchStyle)
    ensures r.backgroundColor == style.backgroundColor && r.width == style.width && r.height == style.height
    ensures r.scalePercent == if o.scalePercent.Some? then o.scalePercent else style.scalePercent
    ensures r.zIndex == if o.zIndex.Some? then o.zIndex else style.zIndex
  {
    style.(scalePercent := if o.scalePercent.Some? then o.scalePercent else style.scalePercent,
           zIndex := if o.zIndex.Some? then o.zIndex else style.zIndex)
  }

  const NoOverride := StyleOverride(None, None)

  /** `styleForStitch`: colour and size, then the focused spread (scale 1.3, zIndex 2), then
      the background spread (scale 0.7), later spreads winning. */
  function StyleForStitch(info: StitchInfo, isBackgroundRow: bool): (style: StitchStyle)
    ensures style.backgroundColor == info.color
    ensures style.width == StitchSize && style.height == StitchSize
    ensures style.zIndex.Some? <==> info.isFocused
    ensures isBackgroundRow ==> style.scalePercent == Some(70)
    ensures !isBackgroundRow && info.isFocused ==> style.scalePercent == Some(130) && style.zIndex == Some(2)
    ensures !isBackgroundRow && !info.isFocused ==> style.scalePercent.None?
  {
    var base := StitchStyle(info.color, StitchSize, StitchSize, None, None);
    var focused := Spread(base, if info.isFocused then StyleOverride(Some(130), Some(2)) else NoOverride);
    Spread(focused, if isBackgroundRow then StyleOverride(Some(70), None) else NoOverride)
  }

  /** In a rendered row the focused and background spreads never both apply, so each stitch's
      scale comes from at most one of them: 130% with zIndex 2 for the focused stitch, 70% on
      background rows, unset otherwise. */
  lemma RowStylesHaveOneSource(pattern: Grid, palette: Palette, rowIndex: int, cursor: Cursor, column: nat)
    requires 0 <= rowIndex < |pattern| && column < |pattern[rowIndex]|
    ensures var info := Stitches(pattern, palette, rowIndex, cursor).value[column];
            var style := StyleForStitch(info, IsBackgroundRow(cursor, rowIndex));
            !(info.isFocused && IsBackgroundRow(cursor, rowIndex)) &&
            (style.scalePercent == Some(130) <==> rowIndex == cursor.row && column == cursor.column) &&
            (style.scalePercent == Some(70) <==> rowIndex != cursor.row) &&
            (style.zIndex == Some(2) <==> rowIndex == cursor.row && column == cursor.column)
  {
  }

  /** A column label is shown for every fifth column and for the cursor's column, on every row. */
  function ShowColumnLabel(column: nat, cursor: Cursor): (shown: bool)
    ensures column % 5 == 0 ==> shown
    ensures column == cursor.column ==> shown
    ensures shown ==> column % 5 == 0 || column == cursor.column
  {
    column % 5 == 0 || column == cursor.column
  }

  /** Every rendered row labels the same columns, the fifth ones and the cursor's, whether or
      not it is the cursor's row. */
  lemma RowLabelsIgnoreRow(pattern: Grid, palette: Palette, rowA: int, rowB: int, cursor: Cursor, column: nat)
    requires 0 <= rowA < |pattern| && 0 <= rowB < |pattern|
    requires column < |pattern[rowA]| && column < |pattern[rowB]|
    ensures var a := Stitches(pattern, palette, rowA, cursor).value[column];
            var b := Stitches(pattern, palette, rowB, cursor).value[column];
            ShowColumnLabel(a.column, cursor) == ShowColumnLabel(b.column, cursor) &&
            (ShowColumnLabel(a.column, cursor) <==> column % 5 == 0 || column == cursor.column)
  {
  }

  /** Among any five consecutive columns one is labelled, and the cursor's column always is. */
  lemma ColumnLabelsEveryFive(column: nat, cursor: Cursor)
    ensures ShowColumnLabel(column + (5 - column % 5) % 5, cursor)
    ensures exists c :: column <= c < column + 5 && ShowColumnLabel(c, cursor)
    ensures cursor.column >= 0 ==> ShowColumnLabel(cursor.column as nat, cursor)
  {
    var c := column + (5 - column % 5) % 5;
    assert column <= c < column + 5 && ShowColumnLabel(c, cursor);
  }
}

=== FILE: sort_order.dfy ===
/** The order JavaScript's default `Array.prototype.sort()` puts colours in:
    strings compared character by character (a proper prefix first), and
    `undefined` after every string. Also the sorted, duplicate-free
    arrangement of a collection under that order. */
module SortOrder {
  import opened Wrappers

  /** Strict lexicographic order on strings. */
  predicate LexLess(a: string, b: string)
    decreases |a|
  {
    if |b| == 0 then false
    else if |a| == 0 then true
    else if a[0] != b[0] then a[0] < b[0]
    else LexLess(a[1..], b[1..])
  }

  lemma {:induction false} LexLessIrreflexive(a: string)
    ensures !LexLess(a, a)
    decreases |a|
  {
    if |a| > 0 {
      LexLessIrreflexive(a[1..]);
    }
  }

  lemma {:induction false} LexLessTransitive(a: string, b: string, c: string)
    requires LexLess(a, b) && LexLess(b, c)
    ensures LexLess(a, c)
    decreases |a|
  {
    if |a| > 0 && a[0] == b[0] && b[0] == c[0] {
      LexLessTransitive(a[1..], b[1..], c[1..]);
    }
  }

  lemma {:induction false} LexLessTotal(a: string, b: string)
    requires a != b
    ensures LexLess(a, b) || LexLess(b, a)
    decreases |a|
  {
    if |a| > 0 && |b| > 0 && a[0] == b[0] {
      assert a == [a[0]] + a[1..] && b == [b[0]] + b[1..];
      LexLessTotal(a[1..], b[1..]);
    }
  }

  /** The sort order of possibly-undefined colours: strings by LexLess, undefined last. */
  predicate Before(a: Option<string>, b: Option<string>) {
    a.Some? && (b.None? || LexLess(a.value, b.value))
  }

  lemma BeforeIrreflexive(a: Option<string>)
    ensures !Before(a, a)
  {
    if a.Some? {
      LexLessIrreflexive(a.value);
    }
  }

  lemma BeforeTransitive(a: Option<string>, b: Option<string>, c: Option<string>)
    requires Before(a, b) && Before(b, c)
    ensures Before(a, c)
  {
    if c.Some? {
      LexLessTransitive(a.value, b.value, c.value);
    }
  }

  lemma BeforeTotal(a: Option<string>, b: Option<string>)
    requires a != b
    ensures Before(a, b) || Before(b, a)
  {
    if a.Some? && b.Some? {
      LexLessTotal(a.value, b.value);
    }
  }

  /** Strictly ascending: sorted and free of duplicates. */
  predicate StrictlySorted(xs: seq<Option<string>>) {
    forall i, j :: 0 <= i < j < |xs| ==> Before(xs[i], xs[j])
  }

  /** Adds x to a strictly sorted list at its place, unless it is already there. */
  function Insert(xs: seq<Option<string>>, x: Option<string>): (r: seq<Option<string>>)
    requires StrictlySorted(xs)
    ensures StrictlySorted(r)
    ensures forall y :: y in r <==> y in xs || y == x
    decreases |xs|
  {
    if |xs| == 0 then [x]
    else if x == xs[0] then xs
    else if Before(x, xs[0]) then
      assert forall j :: 0 < j < |xs| ==> Before(x, xs[j]) by {
        forall j | 0 < j < |xs|
          ensures Before(x, xs[j])
        {
          BeforeTransitive(x, xs[0], xs[j]);
        }
      }
      [x] + xs
    else
      BeforeTotal(x, xs[0]);
      var rest := Insert(xs[1..], x);
      assert forall j :: 0 <= j < |rest| ==> Before(xs[0], rest[j]) by {
        forall j | 0 <= j < |rest|
          ensures Before(xs[0], rest[j])
        {
          assert rest[j] in rest;
          if rest[j] != x {
            var k :| 0 <= k < |xs[1..]| && xs[1..][k] == rest[j];
            assert xs[k + 1] == rest[j];
          }
        }
      }
      assert xs == [xs[0]] + xs[1..];
      [xs[0]] + rest
  }

  /** The distinct elements of xs in ascending order. */
  function SortDistinct(xs: seq<Option<string>>): (r: seq<Option<string>>)
    ensures StrictlySorted(r)
    ensures forall y :: y in r <==> y in xs
    decreases |xs|
  {
    if |xs| == 0 then []
    else
      assert xs == xs[..|xs| - 1] + [xs[|xs| - 1]];
      Insert(SortDistinct(xs[..|xs| - 1]), xs[|xs| - 1])
  }

  /** A strictly sorted list is determined by its elements. */
  lemma {:induction false} StrictlySortedUnique(xs: seq<Option<string>>, ys: seq<Option<string>>)
    requires StrictlySorted(xs) && StrictlySorted(ys)
    requires forall y :: y in xs <==> y in ys
    ensures xs == ys
    decreases |xs|
  {
    assert |xs| > 0 ==> xs[0] in ys;
    assert |ys| > 0 ==> ys[0] in xs;
    if |xs| > 0 && |ys| > 0 {
      // The heads are the least elements of the same set, so they agree.
      if xs[0] != ys[0] {
        assert xs[0] in xs && ys[0] in ys;
        var i :| 0 <= i < |ys| && ys[i] == xs[0];
        var j :| 0 <= j < |xs| && xs[j] == ys[0];
        BeforeTransitive(xs[0], ys[0], xs[0]);
        BeforeIrreflexive(xs[0]);
      }
      forall z
        ensures z in xs[1..] <==> z in ys[1..]
      {
        if z in xs[1..] {
          var k :| 0 <= k < |xs[1..]| && xs[1..][k] == z;
          assert xs[k + 1] == z;
          BeforeIrreflexive(z);
          assert z in xs && z in ys;
          var i :| 0 <= i < |ys| && ys[i] == z;
          assert ys[1..][i - 1] == z;
        }
        if z in ys[1..] {
          var k :| 0 <= k < |ys[1..]| && ys[1..][k] == z;
          assert ys[k + 1] == z;
          BeforeIrreflexive(z);
          assert z in ys && z in xs;
          var i :| 0 <= i < |xs| && xs[i] == z;
          assert xs[1..][i - 1] == z;
        }
      }
      StrictlySortedUnique(xs[1..], ys[1..]);
      assert xs == [xs[0]] + xs[1..] && ys == [ys[0]] + ys[1..];
    }
  }
}

=== FILE: stitch_display.dfy ===
/** The per-stitch display information that Workspace.tsx and Row.tsx both
    compute from one row of the pattern: its colour, whether the cursor is on
    it, and its column. */
module StitchDisplay {
  import opened Wrappers
  import opened Types

  datatype StitchInfo = StitchInfo(color: Option<Color>, isFocused: bool, column: nat)

  /** The display info of each stitch of a row: its palette colour, whether the cursor is on it,
      and its column. */
  function StitchRow(row: seq<int>, rowIndex: int, palette: Palette, cursor: Cursor): (infos: seq<StitchInfo>)
    ensures |infos| == |row|
    ensures forall c :: 0 <= c < |infos| ==> infos[c].column == c
    ensures forall c :: 0 <= c < |infos| ==> infos[c].color == ColorOf(palette, row[c])
    ensures forall c :: 0 <= c < |infos| ==>
              (infos[c].isFocused <==> cursor.row == rowIndex && cursor.column == c)
  {
    seq(|row|, c requires 0 <= c < |row| =>
      StitchInfo(ColorOf(palette, row[c]), cursor.row == rowIndex && cursor.column == c, c))
  }

  function FocusedColumns(infos: seq<StitchInfo>): set<nat> {
    set c | 0 <= c < |infos| && infos[c].isFocused
  }

  /** The focused stitches of a row: the cursor's stitch when it lies in this row, and nothing else. */
  lemma FocusedColumnsOfRow(row: seq<int>, rowIndex: int, palette: Palette, cursor: Cursor)
    ensures FocusedColumns(StitchRow(row, rowIndex, palette, cursor)) ==
            if cursor.row == rowIndex && 0 <= cursor.column < |row| then {cursor.column as nat} else {}
  {
    var infos := StitchRow(row, rowIndex, palette, cursor);
    if cursor.row == rowIndex && 0 <= cursor.column < |row| {
      assert infos[cursor.column].isFocused;
    }
  }

  /** At most one stitch of a row is focused. */
  lemma AtMostOneFocusedInRow(row: seq<int>, rowIndex: int, palette: Palette, cursor: Cursor, a: nat, b: nat)
    requires a < |row| && b < |row|
    requires StitchRow(row, rowIndex, palette, cursor)[a].isFocused
    requires StitchRow(row, rowIndex, palette, cursor)[b].isFocused
    ensures a == b
  {
  }
}

=== FILE: toolbar.dfy ===
/** The toolbar (src/Toolbar.tsx): signed offsets on the jump buttons, the
    distance to the bookmark, the jump targets, and the bookmark buttons. The
    engine functions it calls are parameters (`Types.Engine`). */
module Toolbar {
  import opened Wrappers
  import opened Types
  import Decimal

  /** `toStringWithSign`: "+" before positive numbers, the plain text otherwise. */
  function ToStringWithSign(n: int): (s: string)
    ensures |s| > 0
    ensures s[0] == '+' <==> n > 0
    ensures s[0] == '-' <==> n < 0
    ensures s == "0" <==> n == 0
    ensures n > 0 ==> |s| > 1 && s[1] != '0'
  {
    if n > 0 then "+" + Decimal.IntToString(n) else Decimal.IntToString(n)
  }

  /** Removes one leading "+", if there is one. */
  function StripPlus(s: string): string {
    if |s| > 0 && s[0] == '+' then s[1..] else s
  }

  /** Reading a signed text back (dropping the "+") gives the number it was made from. */
  lemma ToStringWithSignRoundTrip(n: int)
    ensures Decimal.ParseInt(StripPlus(ToStringWithSign(n))) == Some(n)
  {
    if n > 0 {
      assert StripPlus(ToStringWithSign(n)) == Decimal.IntToString(n);
    }
    Decimal.IntToStringRoundTrip(n);
  }

  function Abs(x: int): nat {
    if x < 0 then -x else x
  }

  /** The distance between two cursors along the reading path, as the engine measures it. */
  function Distance(engine: Engine, pattern: Pattern, a: Cursor, b: Cursor): (d: nat)
    ensures var e := engine.extents(pattern);
            var la := engine.stitchCountSinceStartOfPattern(a, e);
            var lb := engine.stitchCountSinceStartOfPattern(b, e);
            (d == la - lb || d == lb - la) && d >= la - lb && d >= lb - la
    ensures var e := engine.extents(pattern);
            d == 0 <==> engine.stitchCountSinceStartOfPattern(a, e) == engine.stitchCountSinceStartOfPattern(b, e)
  {
    var extents := engine.extents(pattern);
    Abs(engine.stitchCountSinceStartOfPattern(a, extents) -
        engine.stitchCountSinceStartOfPattern(b, extents))
  }

  /** `stitchesSinceBookmark`: null without a bookmark, else the distance from the cursor to it. */
  function StitchesSinceBookmark(engine: Engine, pattern: Pattern, cursor: Cursor, bookmark: Option<Cursor>): (d: Option<nat>)
    ensures d.None? <==> bookmark.None?
    ensures d.Some? ==> d.value == Distance(engine, pattern, bookmark.value, cursor)
  {
    if bookmark.None? then None else Some(Distance(engine, pattern, bookmark.value, cursor))
  }

  /** The distance is a pseudometric: zero from a cursor to itself, symmetric, and
      obeying the triangle inequality. */
  lemma DistanceIsPseudometric(engine: Engine, pattern: Pattern, a: Cursor, b: Cursor, c: Cursor)
    ensures Distance(engine, pattern, a, a) == 0
    ensures Distance(engine, pattern, a, b) == Distance(engine, pattern, b, a)
    ensures Distance(engine, pattern, a, c) <= Distance(engine, pattern, a, b) + Distance(engine, pattern, b, c)
  {
  }

  /** Swapping the cursor and the bookmark leaves the distance unchanged. */
  lemma StitchesSinceBookmarkSymmetric(engine: Engine, pattern: Pattern, cursor: Cursor, bookmark: Cursor)
    ensures StitchesSinceBookmark(engine, pattern, cursor, Some(bookmark)) ==
            StitchesSinceBookmark(engine, pattern, bookmark, Some(cursor))
  {
    DistanceIsPseudometric(engine, pattern, cursor, bookmark, cursor);
  }

  /** The suffix of "Jump to bookmark": empty when there is no distance to show, else the
      distance as a backwards offset in parentheses. */
  function BookmarkLabel(distance: Option<nat>): (caption: string)
    ensures caption == "" <==> distance.None? || distance.value == 0
    ensures caption != "" ==> |caption| >= 4 && caption[..2] == "(-" && caption[|caption| - 1] == ')'
    ensures caption != "" ==> Decimal.ParseInt(caption[1..|caption| - 1]) == Some(0 - distance.value)
    ensures caption != "" ==> caption[2] != '0'
  {
    if distance.None? || distance.value == 0 then ""
    else
      var offset: int := 0 - distance.value;
      var text := ToStringWithSign(offset);
      ToStringWithSignRoundTrip(offset);
      var caption := "(" + text + ")";
      assert caption[1..|caption| - 1] == text;
      caption
  }

  /** `stitchesUntilEndOfRow`: the offset of the first stitch past the end of the cursor's row. */
  function StitchesUntilEndOfRow(cursor: Cursor, extents: Extents): (k: int)
    ensures 0 <= cursor.column < extents.width ==> 1 <= k <= extents.width
    ensures cursor.directionHorizontal == Ltr ==> cursor.column + k == extents.width
    ensures cursor.directionHorizontal == Rtl ==> cursor.column - k == -1
  {
    if cursor.directionHorizontal == Ltr then extents.width - cursor.column else cursor.column + 1
  }

  /** What `useJump` hands to a jump button. */
  datatype Jump = Jump(offset: int, color: Option<Color>, target: Cursor)

  /** `useJump(offset)`: the offset unchanged, the cursor the jump leads to, and that stitch's colour. */
  function UseJump(engine: Engine, pattern: Pattern, palette: Palette, cursor: Cursor, offset: int): (j: Jump)
    ensures j.offset == offset
    ensures j.target == engine.offsetBy(cursor, offset, engine.extents(pattern))
    ensures j.color.Some? <==> engine.stitchAt(pattern, j.target) in palette
  {
    var target := engine.offsetBy(cursor, offset, engine.extents(pattern));
    Jump(offset, ColorOf(palette, engine.stitchAt(pattern, target)), target)
  }

  /** Pressing a jump button (`jump`): the cursor becomes the jump's target. */
  function PerformJump(j: Jump): (next: Cursor)
    ensures next == j.target
  {
    j.target
  }

  /** Pressing the button `useJump(offset)` feeds puts the cursor exactly where the engine
      says the offset leads, and its colour preview is that stitch's colour. */
  lemma JumpLandsAtOffset(engine: Engine, pattern: Pattern, palette: Palette, cursor: Cursor, offset: int)
    ensures var j := UseJump(engine, pattern, palette, cursor, offset);
            PerformJump(j) == engine.offsetBy(cursor, offset, engine.extents(pattern)) &&
            j.color == ColorOf(palette, engine.stitchAt(pattern, PerformJump(j)))
  {
  }

  /** The cursor with both reading directions reversed, position unchanged. */
  function Reversed(cursor: Cursor): (r: Cursor)
    ensures r.row == cursor.row && r.column == cursor.column
    ensures r.directionHorizontal != cursor.directionHorizontal
    ensures r.directionVertical != cursor.directionVertical
  {
    cursor.(directionHorizontal := FlipHoriz(cursor.directionHorizontal),
            directionVertical := FlipVert(cursor.directionVertical))
  }

  /** The "Jump to next color" offset: the engine's count, passed through unchanged. */
  function NextColorOffset(engine: Engine, pattern: Pattern, cursor: Cursor): (offset: int)
    ensures offset == engine.countUntilStitchChange(pattern, cursor)
  {
    engine.countUntilStitchChange(pattern, cursor)
  }

  /** The "Previous color" offset: the next-colour count read the other way, negated. */
  function PreviousColorOffset(engine: Engine, pattern: Pattern, cursor: Cursor): (offset: int)
    ensures offset == -NextColorOffset(engine, pattern, Reversed(cursor))
    ensures engine.countUntilStitchChange(pattern, Reversed(cursor)) >= 0 ==> offset <= 0
  {
    -engine.countUntilStitchChange(pattern, Reversed(cursor))
  }

  /** Reversing twice restores the cursor, so each colour offset is the other's negation
      at the reversed cursor. */
  lemma PreviousIsReversedNext(engine: Engine, pattern: Pattern, cursor: Cursor)
    ensures Reversed(Reversed(cursor)) == cursor
    ensures PreviousColorOffset(engine, pattern, cursor) == -NextColorOffset(engine, pattern, Reversed(cursor))
    ensures PreviousColorOffset(engine, pattern, Reversed(cursor)) == -NextColorOffset(engine, pattern, cursor)
  {
  }

  /** Everything the toolbar derives from the current state. */
  datatype ToolbarState = ToolbarState(
    previousColor: Jump,
    nextRow: Jump,
    nextColor: Jump,
    jumpToBookmarkEnabled: bool,
    bookmarkLabel: string)

  function Toolbar(engine: Engine, pattern: Pattern, palette: Palette, cursor: Cursor, bookmark: Option<Cursor>): (t: ToolbarState)
    ensures t.jumpToBookmarkEnabled <==> bookmark.Some?
    ensures t.nextRow.offset == StitchesUntilEndOfRow(cursor, engine.extents(pattern))
    ensures t.previousColor.target == engine.offsetBy(cursor, PreviousColorOffset(engine, pattern, cursor), engine.extents(pattern))
    ensures t.nextColor.target == engine.offsetBy(cursor, NextColorOffset(engine, pattern, cursor), engine.extents(pattern))
    ensures t.previousColor == UseJump(engine, pattern, palette, cursor, PreviousColorOffset(engine, pattern, cursor))
    ensures t.nextRow == UseJump(engine, pattern, palette, cursor, StitchesUntilEndOfRow(cursor, engine.extents(pattern)))
    ensures t.nextColor == UseJump(engine, pattern, palette, cursor, NextColorOffset(engine, pattern, cursor))
    ensures t.nextRow.target == engine.offsetBy(cursor, t.nextRow.offset, engine.extents(pattern))
    ensures t.previousColor.offset == PreviousColorOffset(engine, pattern, cursor)
    ensures t.nextColor.offset == NextColorOffset(engine, pattern, cursor)
    ensures t.bookmarkLabel == BookmarkLabel(StitchesSinceBookmark(engine, pattern, cursor, bookmark))
    ensures bookmark.None? ==> t.bookmarkLabel == ""
  {
    ToolbarState(
      UseJump(engine, pattern, palette, cursor, PreviousColorOffset(engine, pattern, cursor)),
      UseJump(engine, pattern, palette, cursor, StitchesUntilEndOfRow(cursor, engine.extents(pattern))),
      UseJump(engine, pattern, palette, cursor, NextColorOffset(engine, pattern, cursor)),
      bookmark.Some?,
      BookmarkLabel(StitchesSinceBookmark(engine, pattern, cursor, bookmark)))
  }

  /** "Jump to bookmark": the bookmark when there is one; with none the button is disabled
      and the cursor stays. */
  function JumpToBookmark(cursor: Cursor, bookmark: Option<Cursor>): (r: Cursor)
    ensures bookmark.Some? ==> r == bookmark.value
    ensures bookmark.None? ==> r == cursor
  {
    if bookmark.Some? then bookmark.value else cursor
  }

  /** "Save bookmark": the bookmark becomes a copy of the cursor. */
  function SaveBookmark(cursor: Cursor): (bookmark: Option<Cursor>)
    ensures bookmark.Some? && bookmark.value == cursor
  {
    Some(cursor)
  }

  /** Right after saving, or right after jumping to the bookmark, the distance is 0 and
      the label is empty; jumping to a just-saved bookmark returns to the saved cursor. */
  lemma BookmarkRoundTrip(engine: Engine, pattern: Pattern, palette: Palette, saved: Cursor, elsewhere: Cursor,
                          bookmark: Option<Cursor>)
    ensures JumpToBookmark(elsewhere, SaveBookmark(saved)) == saved
    ensures StitchesSinceBookmark(engine, pattern, saved, SaveBookmark(saved)) == Some(0)
    ensures Toolbar(engine, pattern, palette, saved, SaveBookmark(saved)).bookmarkLabel == ""
    ensures bookmark.Some? ==>
              StitchesSinceBookmark(engine, pattern, JumpToBookmark(elsewhere, bookmark), bookmark) == Some(0)
  {
  }
}

=== FILE: types.dfy ===
/** Values shared by the views: the cursor, the palette, the two shapes in
    which the views receive the pattern, and the engine functions the views
    call but whose definitions (the `model` module) are not part of this model. */
module Types {
  import opened Wrappers

  /** A colour as stored in the palette, a hex string such as "#a0c0ff". */
  type Color = string

  /** Palette: stitch value (palette index) to colour. */
  type Palette = map<int, Color>

  /** The pattern as a bare array of rows of palette indices (App.tsx, Row.tsx). */
  type Grid = seq<seq<int>>

  /** The pattern as a record holding its rows (Workspace.tsx, PatternMap.tsx). */
  datatype Pattern = Pattern(rows: Grid)

  datatype HorizontalDirection = Ltr | Rtl
  datatype VerticalDirection = Ascending | Descending

  /** The focused stitch plus the orientation used to read the chart. */
  datatype Cursor = Cursor(
    row: int,
    column: int,
    directionHorizontal: HorizontalDirection,
    directionVertical: VerticalDirection)

  datatype Extents = Extents(width: nat, height: nat)

  /** The functions of the pattern/cursor engine the views call. Their
      definitions are not part of this model, so every view that uses them
      takes them as a parameter. Nothing is assumed about what they compute,
      only that each call returns a value. */
  datatype Engine = Engine(
    extents: Pattern -> Extents,
    offsetBy: (Cursor, int, Extents) -> Cursor,
    stitchCountSinceStartOfPattern: (Cursor, Extents) -> int,
    stitchAt: (Pattern, Cursor) -> int,
    countUntilStitchChange: (Pattern, Cursor) -> int)

  /** `palette[s]`: the colour of a stitch value, undefined when the palette has no entry. */
  function ColorOf(palette: Palette, stitch: int): (c: Option<Color>)
    ensures c.Some? <==> stitch in palette
    ensures c.Some? ==> c.value == palette[stitch]
  {
    if stitch in palette then Some(palette[stitch]) else None
  }

  function FlipHoriz(d: HorizontalDirection): (r: HorizontalDirection)
    ensures r != d
  {
    if d == Ltr then Rtl else Ltr
  }

  function FlipVert(d: VerticalDirection): (r: VerticalDirection)
    ensures r != d
  {
    if d == Ascending then Descending else Ascending
  }
}

=== FILE: workspace.dfy ===
/** The stitch-by-stitch view (src/Workspace.tsx): which rows around the
    cursor are shown, how each is placed and faded, which columns are
    labelled, and each row's list of colour swatches. */
module Workspace {
  import opened Wrappers
  import opened Types
  import opened StitchDisplay
  import SortOrder
  import RowView

  datatype DisplayRow = DisplayRow(rowIndex: int, stitches: seq<StitchInfo>)

  predicate StrictlyDecreasing(xs: seq<int>) {
    forall i, j :: 0 <= i < j < |xs| ==> xs[i] > xs[j]
  }

  /** The row above the cursor's, the cursor's, and the two below it, top first. */
  function CandidateRows(cursor: Cursor): (candidates: seq<int>)
    ensures StrictlyDecreasing(candidates)
  {
    [cursor.row + 1, cursor.row, cursor.row - 1, cursor.row - 2]
  }

  /** The filter of the candidate rows: keeps, in order, the indices of rows the pattern has. */
  function ExistingRows(candidates: seq<int>, height: nat): (kept: seq<int>)
    ensures |kept| <= |candidates|
    ensures forall k :: k in kept <==> k in candidates && 0 <= k < height
    ensures StrictlyDecreasing(candidates) ==> StrictlyDecreasing(kept)
    decreases |candidates|
  {
    if |candidates| == 0 then []
    else
      var rest := ExistingRows(candidates[1..], height);
      assert forall k :: k in candidates[1..] ==> k in candidates;
      assert StrictlyDecreasing(candidates) ==> forall k :: k in rest ==> candidates[0] > k by {
        if StrictlyDecreasing(candidates) {
          assert StrictlyDecreasing(candidates[1..]);
          forall k | k in rest
            ensures candidates[0] > k
          {
            var m :| 0 <= m < |candidates[1..]| && candidates[1..][m] == k;
            assert candidates[m + 1] == k;
          }
        }
      }
      assert forall j :: 0 <= j < |rest| ==> rest[j] in rest;
      if 0 <= candidates[0] < height then [candidates[0]] + rest else rest
  }

  function RowIndices(rows: seq<DisplayRow>): (indices: seq<int>)
    ensures |indices| == |rows|
    ensures forall i :: 0 <= i < |rows| ==> indices[i] == rows[i].rowIndex
  {
    seq(|rows|, i requires 0 <= i < |rows| => rows[i].rowIndex)
  }

  /** `rowsToDisplay`: the existing rows among the four around the cursor, each with its stitches. */
  function RowsToDisplay(pattern: Pattern, palette: Palette, cursor: Cursor): (rows: seq<DisplayRow>)
    ensures |rows| <= 4
    ensures StrictlyDecreasing(RowIndices(rows))
    ensures forall k :: k in RowIndices(rows) <==>
              0 <= k < |pattern.rows| && cursor.row - 2 <= k <= cursor.row + 1
    ensures forall i :: 0 <= i < |rows| ==>
              0 <= rows[i].rowIndex < |pattern.rows| &&
              rows[i].stitches == StitchRow(pattern.rows[rows[i].rowIndex], rows[i].rowIndex, palette, cursor)
  {
    var indices := ExistingRows(CandidateRows(cursor), |pattern.rows|);
    assert forall i :: 0 <= i < |indices| ==> indices[i] in indices;
    var rows := seq(|indices|, i requires 0 <= i < |indices| =>
      DisplayRow(indices[i], StitchRow(pattern.rows[indices[i]], indices[i], palette, cursor)));
    assert RowIndices(rows) == indices;
    rows
  }

  /** Across all displayed rows, only the stitch under the cursor is focused. */
  lemma FocusedStitchIsUnique(pattern: Pattern, palette: Palette, cursor: Cursor, i: nat, a: nat, j: nat, b: nat)
    requires var rows := RowsToDisplay(pattern, palette, cursor);
             i < |rows| && j < |rows| && a < |rows[i].stitches| && b < |rows[j].stitches| &&
             rows[i].stitches[a].isFocused && rows[j].stitches[b].isFocused
    ensures i == j && a == b
    ensures RowsToDisplay(pattern, palette, cursor)[i].rowIndex == cursor.row && a == cursor.column
  {
    var rows := RowsToDisplay(pattern, palette, cursor);
    assert RowIndices(rows)[i] == rows[i].rowIndex && RowIndices(rows)[j] == rows[j].rowIndex;
  }

  /** `opacity`: 1 for the cursor's row and the row below it, 0 otherwise. */
  function Opacity(rowIndex: int, cursor: Cursor): (opacity: int)
    ensures opacity == 0 || opacity == 1
  {
    if rowIndex == cursor.row || rowIndex == cursor.row - 1 then 1 else 0
  }

  /** The visible rows are exactly the cursor's row and the row below it, where those exist. */
  lemma OpaqueRowsAreCursorRowAndBelow(pattern: Pattern, palette: Palette, cursor: Cursor, k: int)
    ensures (k in RowIndices(RowsToDisplay(pattern, palette, cursor)) && Opacity(k, cursor) == 1) <==>
            (0 <= k < |pattern.rows| && (k == cursor.row || k == cursor.row - 1))
  {
  }

  /** `translateY` of a row, in percent of its height. */
  function TranslatePercent(rowIndex: int, cursor: Cursor): (percent: int)
    ensures percent % 100 == 0
    ensures percent == 0 <==> rowIndex == cursor.row
    ensures percent > 0 <==> rowIndex < cursor.row
  {
    (cursor.row - rowIndex) * 100
  }

  /** Displayed rows are shifted by one of four whole-row amounts, distinct rows by distinct
      amounts, and a row nearer the top of the list is shifted less. */
  lemma TranslatesOfDisplayedRows(pattern: Pattern, palette: Palette, cursor: Cursor)
    ensures var rows := RowsToDisplay(pattern, palette, cursor);
            forall i :: 0 <= i < |rows| ==>
              TranslatePercent(rows[i].rowIndex, cursor) in {-100, 0, 100, 200}
    ensures var rows := RowsToDisplay(pattern, palette, cursor);
            forall i, j :: 0 <= i < j < |rows| ==>
              TranslatePercent(rows[i].rowIndex, cursor) < TranslatePercent(rows[j].rowIndex, cursor)
  {
    var rows := RowsToDisplay(pattern, palette, cursor);
    forall i | 0 <= i < |rows|
      ensures cursor.row - 2 <= rows[i].rowIndex <= cursor.row + 1
    {
      assert RowIndices(rows)[i] in RowIndices(rows);
    }
    forall i, j | 0 <= i < j < |rows|
      ensures rows[i].rowIndex > rows[j].rowIndex
    {
      assert RowIndices(rows)[i] > RowIndices(rows)[j];
    }
  }

  /** A stitch's `zIndex`: 1 when focused, 0 otherwise. */
  function StitchZIndex(info: StitchInfo): (z: int)
    ensures z == 0 || z == 1
    ensures z == 1 <==> info.isFocused
  {
    if info.isFocused then 1 else 0
  }

  /** A stitch's scale transform, in hundredths of a percent: 0.7 for rows below the cursor's,
      times 1.3 for the focused stitch. */
  function StitchScale(rowIndex: int, info: StitchInfo, cursor: Cursor): (scale: nat)
    ensures scale in {7000, 9100, 10000, 13000}
    ensures scale > 10000 <==> info.isFocused && rowIndex >= cursor.row
    ensures scale < 10000 <==> rowIndex < cursor.row
  {
    (if rowIndex < cursor.row then 70 else 100) * (if info.isFocused then 130 else 100)
  }

  /** Among the displayed rows, the focused stitch is enlarged to 130%, the other stitches of
      the cursor's row and the row above it keep 100%, and rows below the cursor's shrink to 70%. */
  lemma StitchScalesOfDisplayedRows(pattern: Pattern, palette: Palette, cursor: Cursor, i: nat, column: nat)
    requires var rows := RowsToDisplay(pattern, palette, cursor);
             i < |rows| && column < |rows[i].stitches|
    ensures var row := RowsToDisplay(pattern, palette, cursor)[i];
            var scale := StitchScale(row.rowIndex, row.stitches[column], cursor);
            (scale == 13000 <==> row.rowIndex == cursor.row && column == cursor.column) &&
            (scale == 7000 <==> row.rowIndex < cursor.row) &&
            (scale == 10000 <==> row.rowIndex > cursor.row || (row.rowIndex == cursor.row && column != cursor.column)) &&
            (StitchZIndex(row.stitches[column]) == 1 <==> scale == 13000)
  {
    var row := RowsToDisplay(pattern, palette, cursor)[i];
    var info := row.stitches[column];
    assert info.isFocused <==> row.rowIndex == cursor.row && column == cursor.column;
    assert StitchScale(row.rowIndex, info, cursor) ==
           if info.isFocused then 13000 else if row.rowIndex < cursor.row then 7000 else 10000;
  }

  /** A column index is shown on the cursor's row, for every fifth column and the cursor's column. */
  function ShowColumnLabel(rowIndex: int, column: nat, cursor: Cursor): (shown: bool)
    ensures shown ==> rowIndex == cursor.row
    ensures shown <==> rowIndex == cursor.row && RowView.ShowColumnLabel(column, cursor)
  {
    rowIndex == cursor.row && (column % 5 == 0 || column == cursor.column)
  }

  /** Labels appear on the cursor's row only, and the focused stitch is always labelled; on
      that row they are exactly the labels a single row view shows. */
  lemma ColumnLabelsOnCursorRow(rowIndex: int, column: nat, cursor: Cursor)
    ensures ShowColumnLabel(rowIndex, column, cursor) <==>
              rowIndex == cursor.row && RowView.ShowColumnLabel(column, cursor)
    ensures ShowColumnLabel(rowIndex, column, cursor) ==> rowIndex == cursor.row
    ensures rowIndex == cursor.row && column == cursor.column ==> ShowColumnLabel(rowIndex, column, cursor)
    ensures rowIndex == cursor.row ==> ShowColumnLabel(rowIndex, 5 * (column / 5), cursor)
  {
  }

  function Colors(stitches: seq<StitchInfo>): (colors: seq<Option<Color>>)
    ensures |colors| == |stitches|
    ensures forall k :: 0 <= k < |stitches| ==> colors[k] == stitches[k].color
  {
    seq(|stitches|, k requires 0 <= k < |stitches| => stitches[k].color)
  }

  /** The row's swatches: its distinct colours, collected in a set and sorted by
      JavaScript's default order (undefined last). */
  function Swatches(stitches: seq<StitchInfo>): (swatches: seq<Option<Color>>)
    ensures SortOrder.StrictlySorted(swatches)
    ensures forall i, j :: 0 <= i < j < |swatches| ==> swatches[i] != swatches[j]
    ensures forall i :: 0 <= i < |swatches| - 1 ==> swatches[i].Some?
    ensures forall c :: c in swatches <==> c in Colors(stitches)
  {
    var swatches := SortOrder.SortDistinct(Colors(stitches));
    forall i, j | 0 <= i < j < |swatches|
      ensures swatches[i] != swatches[j]
    {
      SortOrder.BeforeIrreflexive(swatches[i]);
    }
    forall i | 0 <= i < |swatches| - 1
      ensures swatches[i].Some?
    {
      assert SortOrder.Before(swatches[i], swatches[i + 1]);
    }
    swatches
  }

  /** The swatches depend only on the set of colours in the row, not on their order or repetition. */
  lemma SwatchesDependOnColourSetOnly(s: seq<StitchInfo>, t: seq<StitchInfo>)
    requires forall c :: c in Colors(s) <==> c in Colors(t)
    ensures Swatches(s) == Swatches(t)
  {
    SortOrder.StrictlySortedUnique(Swatches(s), Swatches(t));
  }
}

=== FILE: wrappers.dfy ===
/** The optional value used wherever the views produce `null` or `undefined`. */
module Wrappers {

  datatype Option<+T> = None | Some(value: T)
}
